=== FILE: README.md ===
# Neighbourhood weekly report — a Dafny model

This project models the reporting logic of the neighbourhood dashboard of the
311-data project (`server/dash/dashboards/neighborhood_recent.py`). The
dashboard loads one week of updated service requests once. Each time a
neighbourhood council is picked in the dropdown, four callbacks redraw the
report from that in-memory table:

- `update_table`: the council's requests, projected to seven columns.
- `update_text`: the "New Requests", "Closed Requests" and "Net Change" counters.
- `update_figure`: a line chart of new requests per day and request type.
- `update_council_figure`: a pie chart of new requests per request type.

The model also covers the supporting pieces: the default council
(`'Arleta'`), the 7-day window arithmetic, the dropdown options and the date
filter. The date filter compares `YYYY-MM-DD` text, and the model proves that
this text comparison is a chronological comparison.

Modules, one per file:

- `Wrappers` (`wrappers.dfy`): `Option`, for empty dataframe cells and failed date arithmetic.
- `Orders` (`orders.dfy`): Python's ordering of strings and of tuples of strings, as lexicographic orders, proved to be strict total orders.
- `Sorting` (`sorting.dfy`): sorting with duplicates removed. This is `sort_values(...).unique()`, and also the order in which pandas lists groups.
- `Calendar` (`calendar.dfy`): dates in Python's `datetime.date` range and day stepping with overflow. Also the ISO text `Iso`, and the report window.
- `Requests` (`requests.dfy`): the service-request record and the two `df.query` shapes the callbacks build. Also what they select and count.
- `Grouping` (`grouping.dfy`): `groupby(...)[col].count()`. Keys with an empty cell are dropped, keys come out in ascending order, and only present values are counted.
- `Dashboard` (`dashboard.dfy`): the default council, the dropdown options and the four callbacks. Also the properties that tie the callbacks together.

Inputs the module reads from outside become parameters:

- the dataframe → `rows: seq<ServiceRequest>`
- the `/councils` list → `councilNames`
- the keys of `DISCRETE_COLORS_MAP`, in order → `requestTypes`
- the Flask request → `RequestContext`
- the two `datetime.date.today()` readings → `startToday` and `endToday`
- the `textwrap` label wrapping → `wrapLabel`

## Model

| member | source | states |
|---|---|---|
| Dashboard.SelectedCouncil | server/dash/dashboards/neighborhood_recent.py:45-48 | The `councilName` argument is used when the request has a non-empty one. With no request context, no argument or an empty one, the council is `Arleta`. The selection is never empty. |
| Dashboard.PopulateOptions | server/dash/dashboards/neighborhood_recent.py:61-70 | Each option's label equals its value. Values are in strictly ascending string order. Every value is a council name, and every council name appears. |
| Dashboard.OptionsDistinct | server/dash/dashboards/neighborhood_recent.py:65 | No council name is offered twice. |
| Calendar.ReportWindow | server/dash/dashboards/neighborhood_recent.py:27-30 | The start is 7 days before the first clock reading, and the end is 1 day before the second. There is no window exactly when a subtraction would fall before 0001-01-01: the first reading is one of the first seven dates, or the second reading is 0001-01-01. The start always has the six following days, so the line chart's `start_date + timedelta(days=j)` for `j < 7` never overflows. |
| Calendar.ReportWindowSpan | server/dash/dashboards/neighborhood_recent.py:29-30 | When the second reading is `k` days after the first, the window exists whenever its start does, and the end is `6 + k` days after the start: 6 days normally, 7 when loading crosses midnight. |
| Calendar.ReportWindowAcrossMidnight | server/dash/dashboards/neighborhood_recent.py:29-30 | Read on 2024-01-08 and then on 2024-01-09, the window is 2024-01-01 to 2024-01-08. |
| Calendar.SubDaysUnderflow | server/dash/dashboards/neighborhood_recent.py:29-30 | Subtracting `n` days overflows exactly when the date is one of the first `n` dates from 0001-01-01. |
| Calendar.ReportWindowExample | server/dash/dashboards/neighborhood_recent.py:29-30 | Loaded on 2024-01-08, with both readings on that day, the report covers 2024-01-01 to 2024-01-07. |
| Calendar.AddDays | server/dash/dashboards/neighborhood_recent.py:179 | `d + timedelta(days=n)`: adding no days gives `d`. A positive step that does not overflow lands on a strictly later date. |
| Calendar.SubDays | server/dash/dashboards/neighborhood_recent.py:29-30 | `d - timedelta(days=n)`: subtracting no days gives `d`. A positive step that does not overflow lands on a strictly earlier date. |
| Calendar.Iso | server/dash/dashboards/neighborhood_recent.py:36-42 | `str(date)` and `strftime('%Y-%m-%d')`: ten characters, `-` at positions 4 and 7, decimal digits elsewhere. |
| Calendar.NextDay | server/dash/dashboards/neighborhood_recent.py:29-30 | Adding one day fails only on 9999-12-31, and otherwise gives a strictly later date. |
| Calendar.PrevDay | server/dash/dashboards/neighborhood_recent.py:29-30 | Subtracting one day fails only on 0001-01-01, and otherwise gives a strictly earlier date. |
| Calendar.NextPrevInverse | server/dash/dashboards/neighborhood_recent.py:29-30 | `p + 1 day == d` exactly when `d - 1 day == p`. |
| Calendar.SubAddInverse | server/dash/dashboards/neighborhood_recent.py:29-30 | Going back n days reaches `s` exactly when going forward n days from `s` reaches the start. |
| Calendar.PadOrder | server/dash/dashboards/neighborhood_recent.py:39-42 | Zero-padded numerals of one width compare as text the way the numbers compare, and are equal only for equal numbers. |
| Calendar.IsoOrder | server/dash/dashboards/neighborhood_recent.py:39-42 | `YYYY-MM-DD` texts compare the way the dates compare, and equal texts mean equal dates. |
| Calendar.OnOrAfterIsChronological | server/dash/dashboards/neighborhood_recent.py:159 | `createdDate >= start_date` on the texts holds exactly when the date is the start date or some whole number of days after it. |
| Requests.OnOrAfter | server/dash/dashboards/neighborhood_recent.py:159-160 | The text comparison `<date column> >= '<start_date>'` passes exactly when the cell holds a date that is not earlier than the start; an empty cell never passes. |
| Requests.Matches | server/dash/dashboards/neighborhood_recent.py:141-160 | A row passes a query only if it belongs to the council. A dated query also needs the date cell present and not earlier than the start. |
| Requests.OnOrAfterChronological | server/dash/dashboards/neighborhood_recent.py:159-160 | A date filter keeps a row exactly when its date is present and is the start date or a later day. |
| Requests.MatchIndices | server/dash/dashboards/neighborhood_recent.py:141 | A query keeps exactly the positions of the matching rows, in ascending order. |
| Requests.NoMatchIndices | server/dash/dashboards/neighborhood_recent.py:143 | A query result is empty exactly when no row matches. |
| Requests.Select | server/dash/dashboards/neighborhood_recent.py:141 | `df.query` returns the rows at those positions, in their original order. |
| Requests.CountPresent | server/dash/dashboards/neighborhood_recent.py:159-160 | The `srnumber` count never exceeds the number of matching rows. It is zero exactly when no matching row has a request number. It equals the number of matching rows when every one of them has a request number. |
| Requests.CountPresentExact | server/dash/dashboards/neighborhood_recent.py:159-160 | `df.query(q)['srnumber'].count()` is exactly the number of positions whose row matches the query and has a request number. |
| Requests.DateBoundNarrows | server/dash/dashboards/neighborhood_recent.py:159-160 | Adding the date bound keeps no more rows than the council filter alone. |
| Dashboard.ProjectRow | server/dash/dashboards/neighborhood_recent.py:141 | A table record keeps the request number, type, agency, source and address unchanged. Each date column holds the date's `YYYY-MM-DD` text where the request has that date, and is empty where it does not. |
| Dashboard.ProjectRowFaithful | server/dash/dashboards/neighborhood_recent.py:141 | Two requests give the same table record exactly when they agree on every column except the council. |
| Dashboard.UpdateTable | server/dash/dashboards/neighborhood_recent.py:140-147 | With no request for the council: one placeholder row per request type, in colour-map order. Otherwise: exactly the council's requests in original order, each projected to the seven columns. |
| Dashboard.UpdateText | server/dash/dashboards/neighborhood_recent.py:158-165 | The net change is always created minus closed. Closed is never shown positive without created. Neither counter exceeds the council's row count. With closed but no created requests all three are 0; otherwise the true counts are shown. |
| Orders.StrLessIsStrictTotalOrder | server/dash/dashboards/neighborhood_recent.py:65 | Python's string order, used to sort council names, is irreflexive, transitive and total. |
| Orders.KeyLessIsStrictTotalOrder | server/dash/dashboards/neighborhood_recent.py:173 | Tuple order on group keys is a strict total order. |
| Sorting.SortDistinct | server/dash/dashboards/neighborhood_recent.py:65 | Sorting and de-duplicating keeps exactly the input's elements. |
| Sorting.SortDistinctSorted | server/dash/dashboards/neighborhood_recent.py:65 | Under a strict total order, the result is strictly ascending, hence free of duplicates. |
| Grouping.GroupBy | server/dash/dashboards/neighborhood_recent.py:173 | Groups come in strictly ascending key order. There is one group per key present among the entries and no other. Each group's count is the number of entries with that key whose counted column is present. |
| Grouping.GroupByTotal | server/dash/dashboards/neighborhood_recent.py:173 | The group counts sum to the number of keyed entries with the counted column present: nothing lost, nothing double-counted. |
| Grouping.GroupByEmpty | server/dash/dashboards/neighborhood_recent.py:175 | A group-by is empty exactly when no entry has a complete key. |
| Dashboard.KeyOf | server/dash/dashboards/neighborhood_recent.py:173-207 | A row has a group key exactly when its type is present, and also its creation date for the line chart. The key has the chart's width and ends with the request type. For the line chart it starts with the `YYYY-MM-DD` text of the creation date. |
| Dashboard.ChartGroups | server/dash/dashboards/neighborhood_recent.py:173 | Chart groups have keys of the chart's width, in strictly ascending order. Each count is the number of kept rows with that key and a present `srnumber`. |
| Dashboard.ChartGroupsFromRows | server/dash/dashboards/neighborhood_recent.py:173 | Every chart group comes from a row the query keeps, and every kept row with a complete key lands in a group. |
| Dashboard.ChartGroupsEmpty | server/dash/dashboards/neighborhood_recent.py:175 | A chart falls back to placeholders exactly when no kept row has a complete key. |
| Dashboard.FigurePointInWindow | server/dash/dashboards/neighborhood_recent.py:173 | Every group behind a grouped line-chart point comes from a request of the selected council, created on the group's date and with the group's type. That date is the window start or a later day. The point shows that type after label wrapping. |
| Dashboard.WindowDay | server/dash/dashboards/neighborhood_recent.py:179 | `start_date + timedelta(days=j)` exists for every day `j` of the window. |
| Dashboard.UpdateFigure | server/dash/dashboards/neighborhood_recent.py:172-180 | When some matching request has a type and a creation date: one point per group, carrying the date, the count and the wrapped type. Otherwise: 7 zero points dated start+0 … start+6, all with the last request type, or none when there are no request types. |
| Dashboard.PlaceholderLosesTypes | server/dash/dashboards/neighborhood_recent.py:175-179 | When no request of the council was created in the window and the label wrapping tells the first and last types of the colour map apart, the wrapped first type appears on no point of the chart as written. The corrected chart does have a point for it. |
| Dashboard.PlaceholderPoints | server/dash/dashboards/neighborhood_recent.py:177-179 | The intended zero-filled points number days × request types, and all have count 0. |
| Dashboard.PlaceholderPointsCover | server/dash/dashboards/neighborhood_recent.py:177-179 | Every (day, request type) pair has its zero point among the intended placeholder points. |
| Dashboard.UpdateFigureIntended | server/dash/dashboards/neighborhood_recent.py:172-180 | The corrected line chart equals the original when there is data. Otherwise it has 7 × request-types zero points, one for every day and type. |
| Dashboard.UpdateCouncilFigure | server/dash/dashboards/neighborhood_recent.py:206-211 | When some matching request has a type: one slice per request type among them, with its count. Otherwise: one zero slice per request type, in colour-map order. |
| Dashboard.PieSlicesSorted | server/dash/dashboards/neighborhood_recent.py:207 | Pie slices are in strictly ascending type order, so no type appears twice. |
| Dashboard.EntriesCounted | server/dash/dashboards/neighborhood_recent.py:159-173 | Rows that reach the group-by with a present `srnumber` are at most the query's `srnumber` count. They equal it when every kept row with a present `srnumber` has a complete key. |
| Dashboard.ChartTotalMatchesCreated | server/dash/dashboards/neighborhood_recent.py:159-173 | Either chart's counts sum to at most the "New Requests" count before its fallback, and exactly to it when every kept request with a present `srnumber` has a type. |
| Dashboard.EmptyCouncilFallbacks | server/dash/dashboards/neighborhood_recent.py:140-211 | For a council with no requests and a non-empty colour map: the table and pie chart list every request type, the line chart has 7 zero points, and the counters are 0, 0, 0. The corrected line chart has one point per day and type. |

## Left out

- `server/api/code/lacity_data_api/services/status.py` is not part of this model. It passes fixed SQL aggregates and cache commands through, with no logic of its own.
- `components/DateSelector/DateSelector.jsx` and `client/components/GearButton/index.jsx` are not part of this model: they are React UI.
- Network and framework inputs are parameters, not modelled behaviour. These are `batch_get_data` (the dataframe), `pd.read_json` of `/councils` (`councilNames`), the Flask `request` (`RequestContext`; a query argument is its first value) and the two `datetime.date.today()` calls (`startToday`, `endToday`).
- Parsing with `pd.to_datetime(..., errors='coerce')` is left out. Rows hold already-normalised dates, or `None` where the parse failed. Pandas timestamps have four-digit years, so `Iso` is exactly their `strftime('%Y-%m-%d')`.
- Plotly figures, `apply_figure_style`, the Dash layout, `CONFIG_OPTIONS`, the `pretty_columns` headers and the module-level `table_df` (line 50) are left out. They only render or name columns. A chart is modelled as the rows of the dataframe it is drawn from.
- `textwrap.wrap` label wrapping (line 180) is the opaque parameter `wrapLabel`.
- The f-string `df.query` text is modelled as plain equality on the council name. `df.query` parses the text as a Python string literal, so a name containing a quote or backslash character would change the query, and that is not modelled.
- In the line chart's zero-filled rows the source stores `datetime.date` objects in `createdDate`. The model renders them as their ISO text, the same text the grouped rows carry.
- Council names from `/councils` are taken to be present strings. A missing (NaN) name would be sorted last and kept by `unique()`; that is not modelled.
- Reactive dispatch is left out. Each callback is one pure function call.

## Findings

| source | as written | input that shows it | evidently intended | confidence | as-written member | corrected member |
|---|---|---|---|---|---|---|
| server/dash/dashboards/neighborhood_recent.py:177-179 | The inner loop over request types assigns `figure_df.loc[j]`, overwriting day `j`'s row each time. Only the last type's row survives, so the placeholder has 7 rows of one type. | A council with no requests created in the window, and a colour map with two request types A and B whose wrapped labels differ: no point has type A. | One zero row per day and request type (7 × types rows). The nested loop over the colour map and the comment on line 174 ("populated with dummy data") show this intent. | medium; not executed | Dashboard.PlaceholderLosesTypes | Dashboard.UpdateFigureIntended |

=== FILE: calendar.dfy ===
/** Proleptic Gregorian calendar dates in Python's `datetime.date` range
    (0001-01-01 to 9999-12-31), day arithmetic, and the `YYYY-MM-DD` text form
    that the report filters on. */
module Calendar {

  import opened Wrappers
  import opened Orders

  datatype Date = Date(year: int, month: int, day: int)

  const MinYear := 1
  const MaxYear := 9999

  predicate IsLeapYear(y: int) {
    y % 4 == 0 && (y % 100 != 0 || y % 400 == 0)
  }

  function DaysInMonth(y: int, m: int): int {
    if m == 2 then (if IsLeapYear(y) then 29 else 28)
    else if m == 4 || m == 6 || m == 9 || m == 11 then 30
    else 31
  }

  predicate ValidDate(d: Date) {
    && MinYear <= d.year <= MaxYear
    && 1 <= d.month <= 12
    && 1 <= d.day <= DaysInMonth(d.year, d.month)
  }

  /** A value Python's `datetime.date` can hold. */
  type CalendarDate = d: Date | ValidDate(d) witness Date(1, 1, 1)

  const FirstDate: CalendarDate := Date(MinYear, 1, 1)
  const LastDate: CalendarDate := Date(MaxYear, 12, 31)

  /** Chronological order, field by field. */
  predicate DateLess(a: Date, b: Date) {
    || a.year < b.year
    || (a.year == b.year && a.month < b.month)
    || (a.year == b.year && a.month == b.month && a.day < b.day)
  }

  /** `d + timedelta(days=1)`; Python raises OverflowError past the last date. */
  function NextDay(d: CalendarDate): (r: Option<CalendarDate>)
    ensures r.None? <==> d == LastDate
    ensures r.Some? ==> DateLess(d, r.value)
  {
    if d.day < DaysInMonth(d.year, d.month) then Some(Date(d.year, d.month, d.day + 1))
    else if d.month < 12 then Some(Date(d.year, d.month + 1, 1))
    else if d.year < MaxYear then Some(Date(d.year + 1, 1, 1))
    else None
  }

  /** `d - timedelta(days=1)`; Python raises OverflowError before the first date. */
  function PrevDay(d: CalendarDate): (r: Option<CalendarDate>)
    ensures r.None? <==> d == FirstDate
    ensures r.Some? ==> DateLess(r.value, d)
  {
    if d.day > 1 then Some(Date(d.year, d.month, d.day - 1))
    else if d.month > 1 then Some(Date(d.year, d.month - 1, DaysInMonth(d.year, d.month - 1)))
    else if d.year > MinYear then Some(Date(d.year - 1, 12, 31))
    else None
  }

  lemma NextPrevInverse(p: CalendarDate, d: CalendarDate)
    ensures NextDay(p) == Some(d) <==> PrevDay(d) == Some(p)
  {
  }

  /** `d + timedelta(days=n)`, one day at a time; `None` where Python raises
      OverflowError. A positive step lands on a strictly later date. */
  function AddDays(d: CalendarDate, n: nat): (r: Option<CalendarDate>)
    ensures n == 0 ==> r == Some(d)
    ensures r.Some? && n > 0 ==> DateLess(d, r.value)
  {
    if n == 0 then Some(d)
    else match AddDays(d, n - 1)
      case None => None
      case Some(x) => NextDay(x)
  }

  /** `d - timedelta(days=n)`, one day at a time; `None` where Python raises
      OverflowError. A positive step lands on a strictly earlier date. */
  function SubDays(d: CalendarDate, n: nat): (r: Option<CalendarDate>)
    ensures n == 0 ==> r == Some(d)
    ensures r.Some? && n > 0 ==> DateLess(r.value, d)
    decreases n
  {
    if n == 0 then Some(d)
    else match PrevDay(d)
      case None => None
      case Some(p) => SubDays(p, n - 1)
  }

  /** Going back `n` days and forward `n` days undo each other. */
  lemma {:induction false} SubAddInverse(d: CalendarDate, s: CalendarDate, n: nat)
    ensures SubDays(d, n) == Some(s) <==> AddDays(s, n) == Some(d)
    decreases n
  {
    if n > 0 {
      if SubDays(d, n) == Some(s) {
        var p := PrevDay(d).value;
        SubAddInverse(p, s, n - 1);
        NextPrevInverse(p, d);
      }
      if AddDays(s, n) == Some(d) {
        var p := AddDays(s, n - 1).value;
        NextPrevInverse(p, d);
        SubAddInverse(p, s, n - 1);
      }
    }
  }

  lemma {:induction false} SubDaysSplit(d: CalendarDate, a: nat, b: nat)
    ensures SubDays(d, a + b) == (match SubDays(d, a) case None => None case Some(x) => SubDays(x, b))
    decreases a
  {
    if a > 0 {
      match PrevDay(d)
      case None =>
      case Some(p) =>
        SubDaysSplit(p, a - 1, b);
    }
  }

  lemma {:induction false} AddDaysSplit(d: CalendarDate, a: nat, b: nat)
    ensures AddDays(d, a + b) == (match AddDays(d, a) case None => None case Some(x) => AddDays(x, b))
  {
    if b > 0 {
      AddDaysSplit(d, a, b - 1);
    }
  }

  /** The day before `b` is still no earlier than any date before `b`. */
  lemma PrevDayTight(a: CalendarDate, b: CalendarDate)
    requires DateLess(a, b)
    ensures PrevDay(b).Some? && (DateLess(a, PrevDay(b).value) || a == PrevDay(b).value)
  {
  }

  /** A number that grows with the date (not `date.toordinal()`): the
      measure of the walk in `Reach`. */
  function Rank(d: CalendarDate): nat {
    d.year * 512 + d.month * 32 + d.day
  }

  /** Every date on or after `a` is reached from `a` by whole days. */
  lemma {:induction false} Reach(a: CalendarDate, b: CalendarDate)
    requires DateLess(a, b) || a == b
    ensures exists n: nat :: AddDays(a, n) == Some(b)
    decreases Rank(b) - Rank(a)
  {
    if a == b {
      assert AddDays(a, 0) == Some(b);
    } else {
      PrevDayTight(a, b);
      var p := PrevDay(b).value;
      Reach(a, p);
      var n: nat :| AddDays(a, n) == Some(p);
      NextPrevInverse(p, b);
      assert AddDays(a, n + 1) == Some(b);
    }
  }

  function Pow10(w: nat): nat {
    if w == 0 then 1 else 10 * Pow10(w - 1)
  }

  function Digit(k: int): char
    requires 0 <= k < 10
  {
    ('0' as int + k) as char
  }

  /** `n` in decimal, zero-padded to `w` digits. */
  function Pad(n: nat, w: nat): (s: string)
    ensures |s| == w
    ensures forall i :: 0 <= i < |s| ==> '0' <= s[i] <= '9'
  {
    if w == 0 then "" else Pad(n / 10, w - 1) + [Digit(n % 10)]
  }

  /** Zero-padded numerals of one width order like the numbers they denote. */
  lemma {:induction false} PadOrder(n: nat, m: nat, w: nat)
    requires n < Pow10(w) && m < Pow10(w)
    ensures StrLess(Pad(n, w), Pad(m, w)) <==> n < m
    ensures Pad(n, w) == Pad(m, w) <==> n == m
  {
    if w > 0 {
      var pn, pm := Pad(n / 10, w - 1), Pad(m / 10, w - 1);
      var dn, dm := Digit(n % 10), Digit(m % 10);
      PadOrder(n / 10, m / 10, w - 1);
      LexPrefix(pn, [dn], pm, [dm], CharLess);
      ConcatEqual(pn, [dn], pm, [dm]);
      assert LexLess([dn], [dm], CharLess) <==> n % 10 < m % 10;
      assert n == 10 * (n / 10) + n % 10;
      assert m == 10 * (m / 10) + m % 10;
    }
  }

  /** `str(d)`, i.e. `d.isoformat()`, and equally `strftime('%Y-%m-%d')` for
      the four-digit years a pandas timestamp can hold. */
  function Iso(d: CalendarDate): (s: string)
    ensures |s| == 10 && s[4] == '-' && s[7] == '-'
    ensures forall i :: 0 <= i < 10 && i != 4 && i != 7 ==> '0' <= s[i] <= '9'
  {
    var y, m, dd := Pad(d.year, 4), Pad(d.month, 2), Pad(d.day, 2);
    var s := y + ("-" + (m + ("-" + dd)));
    assert forall i :: 0 <= i < 4 ==> s[i] == y[i];
    assert forall i :: 5 <= i < 7 ==> s[i] == m[i - 5];
    assert forall i :: 8 <= i < 10 ==> s[i] == dd[i - 8];
    s
  }

  /** Comparing the ISO texts of two dates compares the dates. */
  lemma IsoOrder(a: CalendarDate, b: CalendarDate)
    ensures StrLess(Iso(a), Iso(b)) <==> DateLess(a, b)
    ensures Iso(a) == Iso(b) <==> a == b
  {
    PadOrder(a.year, b.year, 4);
    PadOrder(a.month, b.month, 2);
    PadOrder(a.day, b.day, 2);
    var ya, yb := Pad(a.year, 4), Pad(b.year, 4);
    var ma, mb := Pad(a.month, 2), Pad(b.month, 2);
    var da, db := Pad(a.day, 2), Pad(b.day, 2);
    var ra, rb := "-" + (ma + ("-" + da)), "-" + (mb + ("-" + db));
    var ta, tb := ma + ("-" + da), mb + ("-" + db);
    LexPrefix(ya, ra, yb, rb, CharLess);
    LexPrefix("-", ta, "-", tb, CharLess);
    LexPrefix(ma, "-" + da, mb, "-" + db, CharLess);
    LexPrefix("-", da, "-", db, CharLess);
    LexIrreflexive("-", CharLess);
    ConcatEqual(ya, ra, yb, rb);
    ConcatEqual("-", ta, "-", tb);
    ConcatEqual(ma, "-" + da, mb, "-" + db);
    ConcatEqual("-", da, "-", db);
  }

  /** The text comparison `Iso(start) <= Iso(d)` holds exactly when `d` is
      `start` or a later day. */
  lemma OnOrAfterIsChronological(start: CalendarDate, d: CalendarDate)
    ensures StrLe(Iso(start), Iso(d)) <==> exists n: nat :: AddDays(start, n) == Some(d)
  {
    IsoOrder(start, d);
    if StrLe(Iso(start), Iso(d)) {
      Reach(start, d);
    }
    if exists n: nat :: AddDays(start, n) == Some(d) {
      var n: nat :| AddDays(start, n) == Some(d);
    }
  }

  const StartDateDelta := 7
  const EndDateDelta := 1

  /** The reported week: from `StartDateDelta` days ago to `EndDateDelta` day ago. */
  datatype Window = Window(start: CalendarDate, end: CalendarDate)

  /** The window computed from the clock. The source reads
      `datetime.date.today()` once for `start_date` (`startToday`) and again
      for `end_date` (`endToday`); `None` where Python's date subtraction
      overflows. */
  function ReportWindow(startToday: CalendarDate, endToday: CalendarDate): (r: Option<Window>)
    ensures r.Some? ==> AddDays(r.value.start, StartDateDelta) == Some(startToday)
    ensures r.Some? ==> AddDays(r.value.end, EndDateDelta) == Some(endToday)
    ensures r.Some? ==> AddDays(r.value.start, StartDateDelta - EndDateDelta).Some?
    ensures r.None? <==>
              (exists k: nat :: k < StartDateDelta && AddDays(FirstDate, k) == Some(startToday))
              || (exists k: nat :: k < EndDateDelta && AddDays(FirstDate, k) == Some(endToday))
  {
    SubDaysUnderflow(startToday, StartDateDelta);
    SubDaysUnderflow(endToday, EndDateDelta);
    match SubDays(startToday, StartDateDelta)
    case None => None
    case Some(s) =>
      SubAddInverse(startToday, s, StartDateDelta);
      AddDaysSplit(s, StartDateDelta - EndDateDelta, EndDateDelta);
      match SubDays(endToday, EndDateDelta)
      case None => None
      case Some(e) =>
        SubAddInverse(endToday, e, EndDateDelta);
        Some(Window(s, e))
  }

  /** When the second clock reading is `k` days after the first (`k` is 0
      unless loading crosses midnight), the window spans `6 + k` days, and
      it exists whenever the start does. */
  lemma ReportWindowSpan(startToday: CalendarDate, endToday: CalendarDate, k: nat)
    requires AddDays(startToday, k) == Some(endToday)
    requires SubDays(startToday, StartDateDelta).Some?
    ensures ReportWindow(startToday, endToday).Some?
    ensures AddDays(ReportWindow(startToday, endToday).value.start, StartDateDelta - EndDateDelta + k)
            == Some(ReportWindow(startToday, endToday).value.end)
  {
    var s := SubDays(startToday, StartDateDelta).value;
    var m := StartDateDelta - EndDateDelta + k;
    SubAddInverse(startToday, s, StartDateDelta);
    AddDaysSplit(s, StartDateDelta, k);
    assert AddDays(s, m + 1) == Some(endToday);
    OneMoreDay(s, m, endToday);
    var x := AddDays(s, m).value;
    NextPrevInverse(x, endToday);
    assert SubDays(endToday, EndDateDelta) == Some(x);
  }

  /** The date `m + 1` days on is the day after the date `m` days on. */
  lemma OneMoreDay(s: CalendarDate, m: nat, e: CalendarDate)
    requires AddDays(s, m + 1) == Some(e)
    ensures AddDays(s, m).Some? && NextDay(AddDays(s, m).value) == Some(e)
  {
  }

  /** Going back `n` days fails exactly when the date is one of the first `n`. */
  lemma SubDaysUnderflow(d: CalendarDate, n: nat)
    ensures SubDays(d, n).None? <==> exists k: nat :: k < n && AddDays(FirstDate, k) == Some(d)
  {
    if SubDays(d, n).None? {
      var k := SubDaysHitsFirst(d, n);
      SubAddInverse(d, FirstDate, k);
    }
    if exists k: nat :: k < n && AddDays(FirstDate, k) == Some(d) {
      var k: nat :| k < n && AddDays(FirstDate, k) == Some(d);
      SubAddInverse(d, FirstDate, k);
      SubDaysSplit(d, k, n - k);
    }
  }

  /** Going back `n` days fails only by running into the first date. */
  lemma {:induction false} SubDaysHitsFirst(d: CalendarDate, n: nat) returns (k: nat)
    requires SubDays(d, n).None?
    ensures k < n && SubDays(d, k) == Some(FirstDate)
    decreases n
  {
    match PrevDay(d)
    case None =>
      k := 0;
    case Some(p) =>
      var j := SubDaysHitsFirst(p, n - 1);
      k := j + 1;
  }

  /** The report loaded on 2024-01-08 covers 2024-01-01 to 2024-01-07. */
  lemma ReportWindowExample()
    ensures ReportWindow(Date(2024, 1, 8), Date(2024, 1, 8)) == Some(Window(Date(2024, 1, 1), Date(2024, 1, 7)))
  {
    var today: CalendarDate := Date(2024, 1, 8);
    assert SubDays(today, 7) == Some(Date(2024, 1, 1));
    assert SubDays(today, 1) == Some(Date(2024, 1, 7));
  }

  /** Loading across midnight into 2024-01-09 gives an eight-day window,
      2024-01-01 to 2024-01-08. */
  lemma ReportWindowAcrossMidnight()
    ensures ReportWindow(Date(2024, 1, 8), Date(2024, 1, 9)) == Some(Window(Date(2024, 1, 1), Date(2024, 1, 8)))
  {
    var today: CalendarDate := Date(2024, 1, 8);
    var tomorrow: CalendarDate := Date(2024, 1, 9);
    assert SubDays(today, 7) == Some(Date(2024, 1, 1));
    assert SubDays(tomorrow, 1) == Some(Date(2024, 1, 8));
  }

}

=== FILE: dashboard.dfy ===
/** The neighbourhood weekly report: the initial council selection, the
    dropdown options, and the four callbacks that redraw the table, the three
    counters, the line chart and the pie chart when the selected council
    changes. The dataframe, the list of council names, the request types of
    the colour map, the label wrapping and the window start are parameters;
    the two clock readings that fix the window are parameters of
    `Calendar.ReportWindow`. */
module Dashboard {

  import opened Wrappers
  import opened Orders
  import opened Sorting
  import opened Calendar
  import opened Requests
  import opened Grouping

  // ---------------------------------------------------------------------
  // Initial selection and dropdown options
  // ---------------------------------------------------------------------

  const DefaultCouncil := "Arleta"
  const CouncilParam := "councilName"

  /** Where the module is loaded: inside a web request with its query
      arguments (first value per name), or outside any request. */
  datatype RequestContext = OutsideRequest | InsideRequest(args: map<string, string>)

  /** `request.args.get('councilName') or 'Arleta'`, falling back to
      `'Arleta'` as well when there is no request context. */
  function SelectedCouncil(ctx: RequestContext): (r: string)
    ensures |r| > 0
    ensures ctx.InsideRequest? && CouncilParam in ctx.args && ctx.args[CouncilParam] != "" ==>
              r == ctx.args[CouncilParam]
    ensures ctx.OutsideRequest? || CouncilParam !in ctx.args || ctx.args[CouncilParam] == "" ==>
              r == DefaultCouncil
  {
    match ctx
    case OutsideRequest => DefaultCouncil
    case InsideRequest(args) =>
      if CouncilParam in args && args[CouncilParam] != "" then args[CouncilParam] else DefaultCouncil
  }

  datatype DropdownOption = DropdownOption(labelText: string, value: string)

  /** The dropdown options: council names sorted, each once, labelled by
      themselves. */
  function PopulateOptions(councilNames: seq<string>): (r: seq<DropdownOption>)
    ensures forall k :: 0 <= k < |r| ==> r[k].labelText == r[k].value
    ensures forall i, j :: 0 <= i < j < |r| ==> StrLess(r[i].value, r[j].value)
    ensures forall k :: 0 <= k < |r| ==> r[k].value in councilNames
    ensures forall n :: n in councilNames ==> exists k :: 0 <= k < |r| && r[k].value == n
  {
    var names := SortDistinct(councilNames, StrLess);
    StrLessIsStrictTotalOrder();
    SortDistinctSorted(councilNames, StrLess);
    var r := seq(|names|, k requires 0 <= k < |names| => DropdownOption(names[k], names[k]));
    assert forall n :: n in councilNames ==> exists k :: 0 <= k < |r| && r[k].value == n by {
      forall n | n in councilNames
        ensures exists k :: 0 <= k < |r| && r[k].value == n
      {
        var k :| 0 <= k < |names| && names[k] == n;
        assert r[k].value == n;
      }
    }
    r
  }

  /** Options are listed without repetition. */
  lemma OptionsDistinct(councilNames: seq<string>, i: int, j: int)
    requires 0 <= i < j < |PopulateOptions(councilNames)|
    ensures PopulateOptions(councilNames)[i].value != PopulateOptions(councilNames)[j].value
  {
    var r := PopulateOptions(councilNames);
    StrLessIsStrictTotalOrder();
    assert StrLess(r[i].value, r[j].value);
  }

  // ---------------------------------------------------------------------
  // Table
  // ---------------------------------------------------------------------

  function IsoOf(d: Option<CalendarDate>): Option<string> {
    match d
    case None => None
    case Some(x) => Some(Iso(x))
  }

  /** A record of the table: either a request projected to the seven shown
      columns, or a placeholder naming one request type. */
  datatype TableRow =
    | RequestRow(srnumber: Option<string>, createdDate: Option<string>, closedDate: Option<string>,
                 typeName: Option<string>, agencyName: Option<string>, sourceName: Option<string>,
                 address: Option<string>)
    | PlaceholderRow(requestType: string)

  /** The seven table columns of a request: every column but the council,
      with the two dates as their `YYYY-MM-DD` text. */
  function ProjectRow(r: ServiceRequest): (t: TableRow)
    ensures t.RequestRow?
    ensures t.srnumber == r.srnumber && t.typeName == r.typeName && t.agencyName == r.agencyName
            && t.sourceName == r.sourceName && t.address == r.address
    ensures t.createdDate.Some? <==> r.createdDate.Some?
    ensures t.closedDate.Some? <==> r.closedDate.Some?
    ensures t.createdDate == IsoOf(r.createdDate) && t.closedDate == IsoOf(r.closedDate)
  {
    RequestRow(r.srnumber, IsoOf(r.createdDate), IsoOf(r.closedDate), r.typeName,
               r.agencyName, r.sourceName, r.address)
  }

  /** Two requests give the same table record exactly when they agree on
      every column except the council: the projection loses nothing else. */
  lemma ProjectRowFaithful(a: ServiceRequest, b: ServiceRequest)
    ensures ProjectRow(a) == ProjectRow(b) <==> a.(councilName := b.councilName) == b
  {
    if a.createdDate.Some? && b.createdDate.Some? {
      IsoOrder(a.createdDate.value, b.createdDate.value);
    }
    if a.closedDate.Some? && b.closedDate.Some? {
      IsoOrder(a.closedDate.value, b.closedDate.value);
    }
  }

  /** `update_table`: the selected council's requests, or one placeholder row
      per request type when the council has none. */
  function UpdateTable(rows: seq<ServiceRequest>, council: string, requestTypes: seq<string>): (r: seq<TableRow>)
    ensures (forall i :: 0 <= i < |rows| ==> !InCouncil(rows[i], council)) ==>
              |r| == |requestTypes| && forall k :: 0 <= k < |r| ==> r[k] == PlaceholderRow(requestTypes[k])
    ensures (exists i :: 0 <= i < |rows| && InCouncil(rows[i], council)) ==>
              var ix := MatchIndices(rows, CouncilIs(council));
              |r| == |ix| && forall k :: 0 <= k < |r| ==> r[k] == ProjectRow(rows[ix[k]])
  {
    var selected := Select(rows, CouncilIs(council));
    NoMatchIndices(rows, CouncilIs(council));
    if |selected| == 0 then
      seq(|requestTypes|, k requires 0 <= k < |requestTypes| => PlaceholderRow(requestTypes[k]))
    else
      seq(|selected|, k requires 0 <= k < |selected| => ProjectRow(selected[k]))
  }

  // ---------------------------------------------------------------------
  // Counters
  // ---------------------------------------------------------------------

  /** The three counters: new requests, closed requests, net change. */
  datatype Summary = Summary(created: int, closed: int, net: int)

  function CreatedSince(council: string, start: CalendarDate): Query {
    CouncilSince(council, CreatedDate, start)
  }

  function ClosedSince(council: string, start: CalendarDate): Query {
    CouncilSince(council, ClosedDate, start)
  }

  /** `update_text`: counts of requests created and closed since the start of
      the window, zeroed when requests were closed but none created. */
  function UpdateText(rows: seq<ServiceRequest>, council: string, start: CalendarDate): (r: Summary)
    ensures r.net == r.created - r.closed
    ensures r.closed > 0 ==> r.created > 0
    ensures 0 <= r.created <= |MatchIndices(rows, CouncilIs(council))|
    ensures 0 <= r.closed <= |MatchIndices(rows, CouncilIs(council))|
    ensures (CountPresent(rows, CreatedSince(council, start)) == 0 && CountPresent(rows, ClosedSince(council, start)) > 0) ==>
              r == Summary(0, 0, 0)
    ensures (CountPresent(rows, CreatedSince(council, start)) > 0 || CountPresent(rows, ClosedSince(council, start)) == 0) ==>
              r.created == CountPresent(rows, CreatedSince(council, start))
              && r.closed == CountPresent(rows, ClosedSince(council, start))
  {
    var created := CountPresent(rows, CreatedSince(council, start));
    var closed := CountPresent(rows, ClosedSince(council, start));
    DateBoundNarrows(rows, council, CreatedDate, start);
    DateBoundNarrows(rows, council, ClosedDate, start);
    if created == 0 && closed > 0 then Summary(0, 0, 0)
    else Summary(created, closed, created - closed)
  }

  // ---------------------------------------------------------------------
  // Charts
  // ---------------------------------------------------------------------

  /** The group-by columns of the two charts. */
  datatype ChartColumns = DateAndType | TypeOnly

  function KeyWidth(cols: ChartColumns): nat {
    match cols
    case DateAndType => 2
    case TypeOnly => 1
  }

  /** The group key of a row; `None` when one of its key cells is empty. */
  function KeyOf(r: ServiceRequest, cols: ChartColumns): (k: Option<Key>)
    ensures k.Some? <==> r.typeName.Some? && (cols == DateAndType ==> r.createdDate.Some?)
    ensures k.Some? ==> |k.value| == KeyWidth(cols) && k.value[KeyWidth(cols) - 1] == r.typeName.value
    ensures cols == DateAndType && k.Some? ==> k.value[0] == Iso(r.createdDate.value)
  {
    match cols
    case DateAndType =>
      if r.createdDate.Some? && r.typeName.Some? then Some([Iso(r.createdDate.value), r.typeName.value]) else None
    case TypeOnly =>
      if r.typeName.Some? then Some([r.typeName.value]) else None
  }

  /** The rows as the group-by sees them after `df.query(q)`: a row the query
      drops has no key. */
  function Entries(rows: seq<ServiceRequest>, q: Query, cols: ChartColumns): (es: seq<Entry>)
    ensures |es| == |rows|
  {
    seq(|rows|, i requires 0 <= i < |rows| =>
      Entry(if Matches(rows[i], q) then KeyOf(rows[i], cols) else None, rows[i].srnumber.Some?))
  }

  /** `df.query(q).groupby(cols)` counted on `srnumber`: one group per key
      among the rows the query keeps, in ascending key order, none from any
      other row. */
  function ChartGroups(rows: seq<ServiceRequest>, q: Query, cols: ChartColumns): (gs: seq<Group>)
    ensures forall g :: 0 <= g < |gs| ==> |gs[g].key| == KeyWidth(cols)
    ensures forall i, j :: 0 <= i < j < |gs| ==> KeyLess(gs[i].key, gs[j].key)
    ensures forall g :: 0 <= g < |gs| ==> gs[g].count == CountKey(Entries(rows, q, cols), gs[g].key)
  {
    var gs := GroupBy(Entries(rows, q, cols));
    assert forall g :: 0 <= g < |gs| ==> |gs[g].key| == KeyWidth(cols) by {
      forall g | 0 <= g < |gs|
        ensures |gs[g].key| == KeyWidth(cols)
      {
        GroupHasRow(rows, q, cols, gs[g].key);
      }
    }
    gs
  }

  /** Some row that `df.query(q)` keeps has group key `k`. */
  ghost predicate KeptRowWithKey(rows: seq<ServiceRequest>, q: Query, cols: ChartColumns, k: Key) {
    exists i :: 0 <= i < |rows| && Matches(rows[i], q) && KeyOf(rows[i], cols) == Some(k)
  }

  /** Some group has key `k`. */
  ghost predicate GroupWithKey(gs: seq<Group>, k: Key) {
    exists g :: 0 <= g < |gs| && gs[g].key == k
  }

  /** Every group comes from a row the query keeps, and every such row with a
      complete key lands in a group. */
  lemma ChartGroupsFromRows(rows: seq<ServiceRequest>, q: Query, cols: ChartColumns, gs: seq<Group>)
    requires gs == ChartGroups(rows, q, cols)
    ensures forall g :: 0 <= g < |gs| ==> KeptRowWithKey(rows, q, cols, gs[g].key)
    ensures forall i :: 0 <= i < |rows| && Matches(rows[i], q) && KeyOf(rows[i], cols).Some? ==>
              GroupWithKey(gs, KeyOf(rows[i], cols).value)
  {
    var es := Entries(rows, q, cols);
    assert gs == GroupBy(es);
    forall g | 0 <= g < |gs|
      ensures KeptRowWithKey(rows, q, cols, gs[g].key)
    {
      assert HasKey(es, gs[g].key);
      GroupHasRow(rows, q, cols, gs[g].key);
    }
    forall i | 0 <= i < |rows| && Matches(rows[i], q) && KeyOf(rows[i], cols).Some?
      ensures GroupWithKey(gs, KeyOf(rows[i], cols).value)
    {
      RowHasGroup(rows, q, cols, i);
    }
  }

  lemma GroupHasRow(rows: seq<ServiceRequest>, q: Query, cols: ChartColumns, k: Key)
    requires HasKey(Entries(rows, q, cols), k)
    ensures KeptRowWithKey(rows, q, cols, k)
  {
    var es := Entries(rows, q, cols);
    var i :| 0 <= i < |es| && es[i].key == Some(k);
    assert Matches(rows[i], q);
  }

  lemma RowHasGroup(rows: seq<ServiceRequest>, q: Query, cols: ChartColumns, i: int)
    requires 0 <= i < |rows| && Matches(rows[i], q) && KeyOf(rows[i], cols).Some?
    ensures GroupWithKey(GroupBy(Entries(rows, q, cols)), KeyOf(rows[i], cols).value)
  {
    var es := Entries(rows, q, cols);
    var gs := GroupBy(es);
    assert es[i].key == KeyOf(rows[i], cols);
    var g :| 0 <= g < |gs| && gs[g].key == es[i].key.value;
  }

  /** Day `j` of the window, `start + timedelta(days=j)`. */
  function WindowDay(start: CalendarDate, j: nat): (d: CalendarDate)
    requires AddDays(start, StartDateDelta - EndDateDelta).Some?
    requires j < StartDateDelta
    ensures AddDays(start, j) == Some(d)
  {
    AddDaysSplit(start, j, StartDateDelta - EndDateDelta - j);
    AddDays(start, j).value
  }

  /** A point of the line chart. */
  datatype FigureRow = FigureRow(createdDate: string, srnumber: nat, typeName: string)

  /** `update_figure`: new requests per day and type; when there are none, one
      zero point for each day of the window. The placeholder loop overwrites
      row `j` for every request type, so every point carries the last type of
      the colour map, and there are no points when the map is empty.
      `wrapLabel` stands for the line wrapping of type names. */
  function UpdateFigure(rows: seq<ServiceRequest>, council: string, start: CalendarDate,
                        requestTypes: seq<string>, wrapLabel: string -> string): (r: seq<FigureRow>)
    requires AddDays(start, StartDateDelta - EndDateDelta).Some?
    ensures var gs := ChartGroups(rows, CreatedSince(council, start), DateAndType);
            |gs| > 0 ==>
              |r| == |gs| &&
              forall k :: 0 <= k < |r| ==>
                |gs[k].key| == 2 && r[k] == FigureRow(gs[k].key[0], gs[k].count, wrapLabel(gs[k].key[1]))
    ensures var gs := ChartGroups(rows, CreatedSince(council, start), DateAndType);
            |gs| == 0 && |requestTypes| > 0 ==>
              |r| == StartDateDelta &&
              forall j :: 0 <= j < |r| ==>
                r[j] == FigureRow(Iso(WindowDay(start, j)), 0, wrapLabel(requestTypes[|requestTypes| - 1]))
    ensures |ChartGroups(rows, CreatedSince(council, start), DateAndType)| == 0 && |requestTypes| == 0 ==> r == []
  {
    var gs := ChartGroups(rows, CreatedSince(council, start), DateAndType);
    if |gs| > 0 then
      seq(|gs|, k requires 0 <= k < |gs| => FigureRow(gs[k].key[0], gs[k].count, wrapLabel(gs[k].key[1])))
    else if |requestTypes| == 0 then []
    else
      var last := requestTypes[|requestTypes| - 1];
      seq(StartDateDelta, j requires 0 <= j < StartDateDelta => FigureRow(Iso(WindowDay(start, j)), 0, wrapLabel(last)))
  }

  /** As written, the zero-filled line chart carries a single request type:
      when no request of the council was created in the window and the
      label wrapping tells the first and the last type of the colour map
      apart, the wrapped first type appears on no point, while the
      corrected chart has a point for it. */
  lemma PlaceholderLosesTypes(rows: seq<ServiceRequest>, council: string, start: CalendarDate,
                               requestTypes: seq<string>, wrapLabel: string -> string)
    requires AddDays(start, StartDateDelta - EndDateDelta).Some?
    requires |ChartGroups(rows, CreatedSince(council, start), DateAndType)| == 0
    requires |requestTypes| > 0 && wrapLabel(requestTypes[0]) != wrapLabel(requestTypes[|requestTypes| - 1])
    ensures |UpdateFigure(rows, council, start, requestTypes, wrapLabel)| == StartDateDelta
    ensures forall p :: 0 <= p < |UpdateFigure(rows, council, start, requestTypes, wrapLabel)| ==>
              UpdateFigure(rows, council, start, requestTypes, wrapLabel)[p].typeName != wrapLabel(requestTypes[0])
    ensures exists p :: 0 <= p < |UpdateFigureIntended(rows, council, start, requestTypes, wrapLabel)| &&
              UpdateFigureIntended(rows, council, start, requestTypes, wrapLabel)[p].typeName == wrapLabel(requestTypes[0])
  {
    var r := UpdateFigureIntended(rows, council, start, requestTypes, wrapLabel);
    var z := ZeroPoint(start, requestTypes, wrapLabel, 0, 0);
    assert z in r;
    var p :| 0 <= p < |r| && r[p] == z;
  }

  /** The zero point for day `j` of the window and request type `k`. */
  function ZeroPoint(start: CalendarDate, requestTypes: seq<string>, wrapLabel: string -> string, j: nat, k: nat): FigureRow
    requires AddDays(start, StartDateDelta - EndDateDelta).Some?
    requires j < StartDateDelta && k < |requestTypes|
  {
    FigureRow(Iso(WindowDay(start, j)), 0, wrapLabel(requestTypes[k]))
  }

  /** The zero-filled points the placeholder loop evidently meant to build:
      for each of the first `days` days of the window, one point per request
      type. */
  function PlaceholderPoints(start: CalendarDate, requestTypes: seq<string>, wrapLabel: string -> string, days: nat): (r: seq<FigureRow>)
    requires AddDays(start, StartDateDelta - EndDateDelta).Some?
    requires days <= StartDateDelta
    ensures |r| == days * |requestTypes|
    ensures forall p :: 0 <= p < |r| ==> r[p].srnumber == 0
  {
    if days == 0 then []
    else
      var d := days - 1;
      var n := |requestTypes|;
      var r := PlaceholderPoints(start, requestTypes, wrapLabel, d)
               + seq(n, k requires 0 <= k < n => ZeroPoint(start, requestTypes, wrapLabel, d, k));
      assert |r| == days * n by {
        assert d * n + n == days * n;
      }
      r
  }

  /** Every day of the window meets every request type among the intended
      placeholder points. */
  lemma {:induction false} PlaceholderPointsCover(start: CalendarDate, requestTypes: seq<string>, wrapLabel: string -> string,
                                                 days: nat, j: nat, k: nat)
    requires AddDays(start, StartDateDelta - EndDateDelta).Some?
    requires days <= StartDateDelta
    requires j < days && k < |requestTypes|
    ensures ZeroPoint(start, requestTypes, wrapLabel, j, k) in PlaceholderPoints(start, requestTypes, wrapLabel, days)
  {
    var d := days - 1;
    var n := |requestTypes|;
    var prefix := PlaceholderPoints(start, requestTypes, wrapLabel, d);
    var day := seq(n, i requires 0 <= i < n => ZeroPoint(start, requestTypes, wrapLabel, d, i));
    var r := PlaceholderPoints(start, requestTypes, wrapLabel, days);
    assert r == prefix + day;
    if j < d {
      PlaceholderPointsCover(start, requestTypes, wrapLabel, d, j, k);
      var p :| 0 <= p < |prefix| && prefix[p] == ZeroPoint(start, requestTypes, wrapLabel, j, k);
      assert r[p] == prefix[p];
    } else {
      assert r[|prefix| + k] == day[k];
    }
  }

  /** `update_figure` with the placeholder the loop evidently meant: the
      grouped points as before, and otherwise a zero point for every day of the
      window and every request type. */
  function UpdateFigureIntended(rows: seq<ServiceRequest>, council: string, start: CalendarDate,
                                requestTypes: seq<string>, wrapLabel: string -> string): (r: seq<FigureRow>)
    requires AddDays(start, StartDateDelta - EndDateDelta).Some?
    ensures var gs := ChartGroups(rows, CreatedSince(council, start), DateAndType);
            |gs| > 0 ==> r == UpdateFigure(rows, council, start, requestTypes, wrapLabel)
    ensures var gs := ChartGroups(rows, CreatedSince(council, start), DateAndType);
            |gs| == 0 ==>
              && |r| == StartDateDelta * |requestTypes|
              && (forall p :: 0 <= p < |r| ==> r[p].srnumber == 0)
              && (forall j, k :: 0 <= j < StartDateDelta && 0 <= k < |requestTypes| ==>
                    ZeroPoint(start, requestTypes, wrapLabel, j, k) in r)
  {
    var gs := ChartGroups(rows, CreatedSince(council, start), DateAndType);
    if |gs| > 0 then UpdateFigure(rows, council, start, requestTypes, wrapLabel)
    else
      var r := PlaceholderPoints(start, requestTypes, wrapLabel, StartDateDelta);
      assert forall j, k :: 0 <= j < StartDateDelta && 0 <= k < |requestTypes| ==>
               ZeroPoint(start, requestTypes, wrapLabel, j, k) in r by {
        forall j, k | 0 <= j < StartDateDelta && 0 <= k < |requestTypes|
          ensures ZeroPoint(start, requestTypes, wrapLabel, j, k) in r
        {
          PlaceholderPointsCover(start, requestTypes, wrapLabel, StartDateDelta, j, k);
        }
      }
      r
  }

  /** A slice of the pie chart. */
  datatype PieRow = PieRow(srnumber: nat, typeName: string)

  /** `update_council_figure`: new requests per type; when there are none, one
      zero slice per request type in colour-map order. */
  function UpdateCouncilFigure(rows: seq<ServiceRequest>, council: string, start: CalendarDate,
                               requestTypes: seq<string>): (r: seq<PieRow>)
    ensures var gs := ChartGroups(rows, CreatedSince(council, start), TypeOnly);
            |gs| > 0 ==>
              |r| == |gs| &&
              forall k :: 0 <= k < |r| ==> |gs[k].key| == 1 && r[k] == PieRow(gs[k].count, gs[k].key[0])
    ensures |ChartGroups(rows, CreatedSince(council, start), TypeOnly)| == 0 ==>
              |r| == |requestTypes| && forall k :: 0 <= k < |r| ==> r[k] == PieRow(0, requestTypes[k])
  {
    var gs := ChartGroups(rows, CreatedSince(council, start), TypeOnly);
    if |gs| > 0 then
      seq(|gs|, k requires 0 <= k < |gs| => PieRow(gs[k].count, gs[k].key[0]))
    else
      seq(|requestTypes|, k requires 0 <= k < |requestTypes| => PieRow(0, requestTypes[k]))
  }

  // ---------------------------------------------------------------------
  // Properties across the callbacks
  // ---------------------------------------------------------------------

  /** The charts fall back to placeholders exactly when no request of the
      council created since the start has a complete key. */
  lemma ChartGroupsEmpty(rows: seq<ServiceRequest>, q: Query, cols: ChartColumns)
    ensures |ChartGroups(rows, q, cols)| == 0 <==>
            forall i :: 0 <= i < |rows| ==> !(Matches(rows[i], q) && KeyOf(rows[i], cols).Some?)
  {
    var gs := ChartGroups(rows, q, cols);
    ChartGroupsFromRows(rows, q, cols, gs);
    if |gs| > 0 {
      assert KeptRowWithKey(rows, q, cols, gs[0].key);
      var i :| 0 <= i < |rows| && Matches(rows[i], q) && KeyOf(rows[i], cols) == Some(gs[0].key);
    }
  }

  /** Every point of the line chart stands for a request of the selected
      council created on the point's date, and that date is the start of the
      window or a later day. */
  lemma FigurePointInWindow(rows: seq<ServiceRequest>, council: string, start: CalendarDate, g: int)
      returns (i: nat, n: nat)
    requires 0 <= g < |ChartGroups(rows, CreatedSince(council, start), DateAndType)|
    ensures i < |rows| && InCouncil(rows[i], council)
    ensures AddDays(start, n) == rows[i].createdDate
    ensures rows[i].createdDate.Some? && rows[i].typeName.Some?
    ensures ChartGroups(rows, CreatedSince(council, start), DateAndType)[g].key
            == [Iso(rows[i].createdDate.value), rows[i].typeName.value]
  {
    var q := CreatedSince(council, start);
    var gs := ChartGroups(rows, q, DateAndType);
    ChartGroupsFromRows(rows, q, DateAndType, gs);
    assert KeptRowWithKey(rows, q, DateAndType, gs[g].key);
    var j :| 0 <= j < |rows| && Matches(rows[j], q) && KeyOf(rows[j], DateAndType) == Some(gs[g].key);
    i := j;
    OnOrAfterChronological(rows[i].createdDate, start);
    n :| AddDays(start, n) == rows[i].createdDate;
  }

  /** Rows that pass `df.query(q)` and have a complete key, counted by their
      `srnumber`, add up to at most the query's `srnumber` count, and to
      exactly that count when every counted row has a complete key. */
  lemma {:induction false} EntriesCounted(rows: seq<ServiceRequest>, q: Query, cols: ChartColumns)
    ensures Counted(Entries(rows, q, cols)) <= CountPresent(rows, q)
    ensures (forall i :: 0 <= i < |rows| && Matches(rows[i], q) && rows[i].srnumber.Some? ==>
               KeyOf(rows[i], cols).Some?) ==>
              Counted(Entries(rows, q, cols)) == CountPresent(rows, q)
  {
    if |rows| > 0 {
      var n := |rows| - 1;
      var es := Entries(rows, q, cols);
      var pre := rows[..n];
      assert es[..n] == Entries(pre, q, cols);
      assert Counted(es) == Counted(es[..n]) + (if es[n].key.Some? && es[n].counted then 1 else 0);
      assert CountPresent(rows, q) == CountPresent(pre, q)
             + (if Matches(rows[n], q) && rows[n].srnumber.Some? then 1 else 0);
      EntriesCounted(pre, q, cols);
      if forall i :: 0 <= i < |rows| && Matches(rows[i], q) && rows[i].srnumber.Some? ==> KeyOf(rows[i], cols).Some? {
        forall i | 0 <= i < n && Matches(pre[i], q) && pre[i].srnumber.Some?
          ensures KeyOf(pre[i], cols).Some?
        {
          assert pre[i] == rows[i];
        }
      }
    }
  }

  /** The chart totals agree with the "New Requests" counter: the points of
      either chart never add up to more than the requests created since the
      start, and add up to exactly that many when all of them have a type
      (and, for the line chart, a creation date, which the date bound
      already demands). */
  lemma ChartTotalMatchesCreated(rows: seq<ServiceRequest>, council: string, start: CalendarDate, cols: ChartColumns)
    ensures SumCounts(ChartGroups(rows, CreatedSince(council, start), cols))
            <= CountPresent(rows, CreatedSince(council, start))
    ensures (forall i :: 0 <= i < |rows| && Matches(rows[i], CreatedSince(council, start)) && rows[i].srnumber.Some? ==>
               rows[i].typeName.Some?) ==>
              SumCounts(ChartGroups(rows, CreatedSince(council, start), cols))
              == CountPresent(rows, CreatedSince(council, start))
  {
    var q := CreatedSince(council, start);
    GroupByTotal(Entries(rows, q, cols));
    EntriesCounted(rows, q, cols);
  }

  /** The pie chart lists each request type once, in ascending order. */
  lemma PieSlicesSorted(rows: seq<ServiceRequest>, council: string, start: CalendarDate,
                        requestTypes: seq<string>, i: int, j: int)
    requires |ChartGroups(rows, CreatedSince(council, start), TypeOnly)| > 0
    requires 0 <= i < j < |UpdateCouncilFigure(rows, council, start, requestTypes)|
    ensures StrLess(UpdateCouncilFigure(rows, council, start, requestTypes)[i].typeName,
                    UpdateCouncilFigure(rows, council, start, requestTypes)[j].typeName)
  {
    var gs := ChartGroups(rows, CreatedSince(council, start), TypeOnly);
    var a, b := gs[i].key, gs[j].key;
    assert KeyLess(a, b);
    assert a == [a[0]] && b == [b[0]];
    if a[0] == b[0] {
      LexIrreflexive(a, StrLess);
    }
  }

  /** A council with no requests at all: the table lists every request type,
      the pie chart has a zero slice per type, and the line chart has seven
      zero points (when the colour map is not empty). */
  lemma EmptyCouncilFallbacks(rows: seq<ServiceRequest>, council: string, start: CalendarDate,
                              requestTypes: seq<string>, wrapLabel: string -> string)
    requires forall i :: 0 <= i < |rows| ==> !InCouncil(rows[i], council)
    requires AddDays(start, StartDateDelta - EndDateDelta).Some?
    requires |requestTypes| > 0
    ensures UpdateTable(rows, council, requestTypes)
            == seq(|requestTypes|, k requires 0 <= k < |requestTypes| => PlaceholderRow(requestTypes[k]))
    ensures UpdateCouncilFigure(rows, council, start, requestTypes)
            == seq(|requestTypes|, k requires 0 <= k < |requestTypes| => PieRow(0, requestTypes[k]))
    ensures |UpdateFigure(rows, council, start, requestTypes, wrapLabel)| == StartDateDelta
    ensures forall j :: 0 <= j < StartDateDelta ==>
              UpdateFigure(rows, council, start, requestTypes, wrapLabel)[j].srnumber == 0
    ensures UpdateText(rows, council, start) == Summary(0, 0, 0)
    ensures |UpdateFigureIntended(rows, council, start, requestTypes, wrapLabel)| == StartDateDelta * |requestTypes|
  {
    NoMatchIndices(rows, CouncilIs(council));
    NoMatchIndices(rows, CreatedSince(council, start));
    NoMatchIndices(rows, ClosedSince(council, start));
    assert CountPresent(rows, CreatedSince(council, start)) == 0;
    assert CountPresent(rows, ClosedSince(council, start)) == 0;
    ChartGroupsEmpty(rows, CreatedSince(council, start), DateAndType);
    ChartGroupsEmpty(rows, CreatedSince(council, start), TypeOnly);
  }

}

=== FILE: grouping.dfy ===
/** A pandas group-by followed by `count()` of one column: rows whose key has
    an empty part are dropped, the groups come out in ascending key order, and
    each group counts its rows whose counted column is present. */
module Grouping {

  import opened Wrappers
  import opened Orders
  import opened Sorting

  /** The values of the group-by columns, in column order. */
  type Key = seq<string>

  /** One row as the group-by sees it: its key (`None` when a key cell is
      empty or the row was filtered out) and whether the counted column is
      present. */
  datatype Entry = Entry(key: Option<Key>, counted: bool)

  datatype Group = Group(key: Key, count: nat)

  ghost predicate HasKey(es: seq<Entry>, k: Key) {
    exists i :: 0 <= i < |es| && es[i].key == Some(k)
  }

  /** The keys of the entries that have one, with repetitions. */
  function PresentKeys(es: seq<Entry>): (ks: seq<Key>)
    ensures forall k :: k in ks <==> HasKey(es, k)
  {
    if |es| == 0 then []
    else
      var n := |es| - 1;
      var prefix := PresentKeys(es[..n]);
      assert forall k :: HasKey(es, k) <==> HasKey(es[..n], k) || es[n].key == Some(k) by {
        forall k | HasKey(es, k) && es[n].key != Some(k)
          ensures HasKey(es[..n], k)
        {
          var i :| 0 <= i < |es| && es[i].key == Some(k);
          assert es[..n][i] == es[i];
        }
        forall k | HasKey(es[..n], k)
          ensures HasKey(es, k)
        {
          var i :| 0 <= i < n && es[..n][i].key == Some(k);
          assert es[i] == es[..n][i];
        }
      }
      match es[n].key
      case None => prefix
      case Some(k) => prefix + [k]
  }

  /** The number of entries with key `k` whose counted column is present. */
  function CountKey(es: seq<Entry>, k: Key): nat {
    if |es| == 0 then 0
    else
      var n := |es| - 1;
      CountKey(es[..n], k) + (if es[n].key == Some(k) && es[n].counted then 1 else 0)
  }

  /** The number of entries that have a key and whose counted column is present. */
  function Counted(es: seq<Entry>): nat {
    if |es| == 0 then 0
    else
      var n := |es| - 1;
      Counted(es[..n]) + (if es[n].key.Some? && es[n].counted then 1 else 0)
  }

  function SumCounts(gs: seq<Group>): nat {
    if |gs| == 0 then 0 else SumCounts(gs[..|gs| - 1]) + gs[|gs| - 1].count
  }

  /** `groupby(key columns)[column].count().reset_index()`. */
  function GroupBy(es: seq<Entry>): (gs: seq<Group>)
    ensures forall i, j :: 0 <= i < j < |gs| ==> KeyLess(gs[i].key, gs[j].key)
    ensures forall g :: 0 <= g < |gs| ==> HasKey(es, gs[g].key)
    ensures forall i :: 0 <= i < |es| && es[i].key.Some? ==>
              exists g :: 0 <= g < |gs| && gs[g].key == es[i].key.value
    ensures forall g :: 0 <= g < |gs| ==> gs[g].count == CountKey(es, gs[g].key)
  {
    var ks := SortDistinct(PresentKeys(es), KeyLess);
    KeyLessIsStrictTotalOrder();
    SortDistinctSorted(PresentKeys(es), KeyLess);
    var gs := seq(|ks|, g requires 0 <= g < |ks| => Group(ks[g], CountKey(es, ks[g])));
    assert forall i :: 0 <= i < |es| && es[i].key.Some? ==>
             exists g :: 0 <= g < |gs| && gs[g].key == es[i].key.value by {
      forall i | 0 <= i < |es| && es[i].key.Some?
        ensures exists g :: 0 <= g < |gs| && gs[g].key == es[i].key.value
      {
        assert HasKey(es, es[i].key.value);
        var g :| 0 <= g < |ks| && ks[g] == es[i].key.value;
        assert gs[g].key == es[i].key.value;
      }
    }
    gs
  }

  /** How often `x` occurs in `ks`. */
  function Occurrences(ks: seq<Key>, x: Key): nat {
    if |ks| == 0 then 0
    else Occurrences(ks[..|ks| - 1], x) + (if ks[|ks| - 1] == x then 1 else 0)
  }

  lemma {:induction false} OccurrencesDistinct(ks: seq<Key>, x: Key)
    requires forall i, j :: 0 <= i < j < |ks| ==> ks[i] != ks[j]
    ensures Occurrences(ks, x) == (if x in ks then 1 else 0)
  {
    if |ks| > 0 {
      var n := |ks| - 1;
      OccurrencesDistinct(ks[..n], x);
      assert ks == ks[..n] + [ks[n]];
      if ks[n] == x {
        assert x !in ks[..n];
      }
    }
  }

  /** The counts of keys `ks` summed over entries `es`. */
  function SumOver(ks: seq<Key>, es: seq<Entry>): nat {
    if |ks| == 0 then 0 else SumOver(ks[..|ks| - 1], es) + CountKey(es, ks[|ks| - 1])
  }

  lemma {:induction false} SumOverSnoc(ks: seq<Key>, es: seq<Entry>, e: Entry)
    ensures SumOver(ks, es + [e]) ==
            SumOver(ks, es) + (if e.key.Some? && e.counted then Occurrences(ks, e.key.value) else 0)
  {
    assert (es + [e])[..|es|] == es;
    if |ks| > 0 {
      SumOverSnoc(ks[..|ks| - 1], es, e);
    }
  }

  lemma {:induction false} SumOverCovering(ks: seq<Key>, es: seq<Entry>)
    requires forall i, j :: 0 <= i < j < |ks| ==> ks[i] != ks[j]
    requires forall i :: 0 <= i < |es| && es[i].key.Some? ==> es[i].key.value in ks
    ensures SumOver(ks, es) == Counted(es)
  {
    if |es| == 0 {
      SumOverEmpty(ks, es);
    } else {
      var n := |es| - 1;
      assert es == es[..n] + [es[n]];
      SumOverCovering(ks, es[..n]);
      SumOverSnoc(ks, es[..n], es[n]);
      if es[n].key.Some? {
        OccurrencesDistinct(ks, es[n].key.value);
      }
    }
  }

  lemma {:induction false} SumOverEmpty(ks: seq<Key>, es: seq<Entry>)
    requires |es| == 0
    ensures SumOver(ks, es) == 0
  {
    if |ks| > 0 {
      SumOverEmpty(ks[..|ks| - 1], es);
    }
  }

  lemma {:induction false} SumCountsOver(gs: seq<Group>, ks: seq<Key>, es: seq<Entry>)
    requires |gs| == |ks|
    requires forall g :: 0 <= g < |gs| ==> gs[g].key == ks[g] && gs[g].count == CountKey(es, ks[g])
    ensures SumCounts(gs) == SumOver(ks, es)
  {
    if |gs| > 0 {
      SumCountsOver(gs[..|gs| - 1], ks[..|ks| - 1], es);
    }
  }

  /** No row is lost or counted twice: the group counts add up to the number
      of keyed entries whose counted column is present. */
  lemma GroupByTotal(es: seq<Entry>)
    ensures SumCounts(GroupBy(es)) == Counted(es)
  {
    var gs := GroupBy(es);
    var ks := seq(|gs|, g requires 0 <= g < |gs| => gs[g].key);
    KeyLessIsStrictTotalOrder();
    forall i, j | 0 <= i < j < |ks|
      ensures ks[i] != ks[j]
    {
      assert KeyLess(ks[i], ks[j]);
    }
    forall i | 0 <= i < |es| && es[i].key.Some?
      ensures es[i].key.value in ks
    {
      var g :| 0 <= g < |gs| && gs[g].key == es[i].key.value;
      assert ks[g] == gs[g].key;
    }
    SumCountsOver(gs, ks, es);
    SumOverCovering(ks, es);
  }

  /** There are no groups exactly when no entry has a key. */
  lemma GroupByEmpty(es: seq<Entry>)
    ensures |GroupBy(es)| == 0 <==> forall i :: 0 <= i < |es| ==> es[i].key.None?
  {
    var gs := GroupBy(es);
    if |gs| > 0 {
      assert HasKey(es, gs[0].key);
    }
  }

}

=== FILE: orders.dfy ===
/** Strict total orders and the lexicographic order on sequences.

    Python compares strings code point by code point, a proper prefix sorting
    first; tuples compare the same way, element by element. Both are instances
    of `LexLess`: strings over the order on characters (`StrLess`) and the tuple
    keys of a pandas group-by over the order on strings (`KeyLess`). */
module Orders {

  ghost predicate StrictTotalOrder<T(!new)>(less: (T, T) -> bool) {
    && (forall a :: !less(a, a))
    && (forall a, b, c :: less(a, b) && less(b, c) ==> less(a, c))
    && (forall a, b :: a != b ==> less(a, b) || less(b, a))
  }

  /** `a` sorts strictly before `b`: at the first position where they differ
      `less` decides, and a proper prefix sorts first. */
  function LexLess<T(==)>(a: seq<T>, b: seq<T>, less: (T, T) -> bool): bool
    decreases |a|
  {
    if |a| == 0 then |b| > 0
    else if |b| == 0 then false
    else if a[0] != b[0] then less(a[0], b[0])
    else LexLess(a[1..], b[1..], less)
  }

  lemma {:induction false} LexIrreflexive<T>(a: seq<T>, less: (T, T) -> bool)
    ensures !LexLess(a, a, less)
    decreases |a|
  {
    if |a| > 0 {
      LexIrreflexive(a[1..], less);
    }
  }

  lemma {:induction false} LexTransitive<T(!new)>(a: seq<T>, b: seq<T>, c: seq<T>, less: (T, T) -> bool)
    requires StrictTotalOrder(less)
    requires LexLess(a, b, less) && LexLess(b, c, less)
    ensures LexLess(a, c, less)
    decreases |a|
  {
    if |a| > 0 && a[0] == b[0] && b[0] == c[0] {
      LexTransitive(a[1..], b[1..], c[1..], less);
    } else if |a| > 0 && a[0] != b[0] && b[0] != c[0] {
      assert less(a[0], b[0]) && less(b[0], c[0]);
    }
  }

  lemma {:induction false} LexTotal<T(!new)>(a: seq<T>, b: seq<T>, less: (T, T) -> bool)
    requires StrictTotalOrder(less)
    requires a != b
    ensures LexLess(a, b, less) || LexLess(b, a, less)
    decreases |a|
  {
    if |a| > 0 && |b| > 0 && a[0] == b[0] {
      assert a == [a[0]] + a[1..] && b == [b[0]] + b[1..];
      LexTotal(a[1..], b[1..], less);
    }
  }

  /** Comparing two concatenations whose first parts have the same length:
      the first parts decide unless they are equal. */
  lemma {:induction false} LexPrefix<T>(p1: seq<T>, s1: seq<T>, p2: seq<T>, s2: seq<T>, less: (T, T) -> bool)
    requires |p1| == |p2|
    ensures LexLess(p1 + s1, p2 + s2, less) == (LexLess(p1, p2, less) || (p1 == p2 && LexLess(s1, s2, less)))
    decreases |p1|
  {
    if |p1| == 0 {
      assert p1 + s1 == s1 && p2 + s2 == s2;
    } else {
      assert (p1 + s1)[1..] == p1[1..] + s1;
      assert (p2 + s2)[1..] == p2[1..] + s2;
      assert p1 == [p1[0]] + p1[1..] && p2 == [p2[0]] + p2[1..];
      LexPrefix(p1[1..], s1, p2[1..], s2, less);
    }
  }

  /** Two concatenations whose first parts have the same length are equal
      exactly when both parts are. */
  lemma ConcatEqual<T>(p1: seq<T>, s1: seq<T>, p2: seq<T>, s2: seq<T>)
    requires |p1| == |p2|
    ensures (p1 + s1 == p2 + s2) <==> (p1 == p2 && s1 == s2)
  {
    if p1 + s1 == p2 + s2 {
      assert p1 == (p1 + s1)[..|p1|];
      assert p2 == (p2 + s2)[..|p2|];
      assert s1 == (p1 + s1)[|p1|..];
      assert s2 == (p2 + s2)[|p2|..];
    }
  }

  function CharLess(a: char, b: char): bool {
    a < b
  }

  /** Python's `<` on `str`. */
  function StrLess(a: string, b: string): bool {
    LexLess(a, b, CharLess)
  }

  /** Python's `<=` on `str`. */
  function StrLe(a: string, b: string): bool {
    a == b || StrLess(a, b)
  }

  /** Python's `<` on tuples of strings, the order of group-by keys. */
  function KeyLess(a: seq<string>, b: seq<string>): bool {
    LexLess(a, b, StrLess)
  }

  lemma CharLessIsStrictTotalOrder()
    ensures StrictTotalOrder(CharLess)
  {
  }

  lemma StrLessIsStrictTotalOrder()
    ensures StrictTotalOrder(StrLess)
  {
    CharLessIsStrictTotalOrder();
    forall a: string
      ensures !StrLess(a, a)
    {
      LexIrreflexive(a, CharLess);
    }
    forall a: string, b: string, c: string | StrLess(a, b) && StrLess(b, c)
      ensures StrLess(a, c)
    {
      LexTransitive(a, b, c, CharLess);
    }
    forall a: string, b: string | a != b
      ensures StrLess(a, b) || StrLess(b, a)
    {
      LexTotal(a, b, CharLess);
    }
  }

  lemma KeyLessIsStrictTotalOrder()
    ensures StrictTotalOrder(KeyLess)
  {
    StrLessIsStrictTotalOrder();
    forall a: seq<string>
      ensures !KeyLess(a, a)
    {
      LexIrreflexive(a, StrLess);
    }
    forall a: seq<string>, b: seq<string>, c: seq<string> | KeyLess(a, b) && KeyLess(b, c)
      ensures KeyLess(a, c)
    {
      LexTransitive(a, b, c, StrLess);
    }
    forall a: seq<string>, b: seq<string> | a != b
      ensures KeyLess(a, b) || KeyLess(b, a)
    {
      LexTotal(a, b, StrLess);
    }
  }

}

=== FILE: requests.dfy ===
/** The in-memory service-request table the dashboard loads once, and the
    `df.query(...)` filters its callbacks run against it. */
module Requests {

  import opened Wrappers
  import opened Orders
  import opened Calendar

  /** One row of the dataframe after its two date columns were normalised to
      calendar dates; every column may be empty (NaN/NaT). */
  datatype ServiceRequest = ServiceRequest(
    srnumber: Option<string>,
    createdDate: Option<CalendarDate>,
    closedDate: Option<CalendarDate>,
    typeName: Option<string>,
    agencyName: Option<string>,
    sourceName: Option<string>,
    address: Option<string>,
    councilName: Option<string>)

  datatype DateColumn = CreatedDate | ClosedDate

  function DateOf(r: ServiceRequest, col: DateColumn): Option<CalendarDate> {
    match col
    case CreatedDate => r.createdDate
    case ClosedDate => r.closedDate
  }

  /** `councilName == '<council>'`; an empty council cell equals nothing. */
  predicate InCouncil(r: ServiceRequest, council: string) {
    r.councilName == Some(council)
  }

  /** `<column> >= '<start>'`: the comparison is between the `YYYY-MM-DD`
      texts, and an empty date cell never passes it. It keeps exactly the
      dates that are not earlier than the start. */
  function OnOrAfter(date: Option<CalendarDate>, start: CalendarDate): (b: bool)
    ensures b <==> date.Some? && !DateLess(date.value, start)
  {
    date.Some? && (IsoOrder(start, date.value); StrLe(Iso(start), Iso(date.value)))
  }

  /** The two query shapes the callbacks build. */
  datatype Query =
    | CouncilIs(council: string)
    | CouncilSince(council: string, column: DateColumn, start: CalendarDate)

  /** A row passes a query when it is in the council and, for a dated query,
      its date cell is present and not earlier than the start. */
  function Matches(r: ServiceRequest, q: Query): (b: bool)
    ensures b ==> r.councilName == Some(q.council)
    ensures q.CouncilIs? ==> (b <==> r.councilName == Some(q.council))
    ensures q.CouncilSince? ==>
              (b <==> r.councilName == Some(q.council) && DateOf(r, q.column).Some?
                      && !DateLess(DateOf(r, q.column).value, q.start))
  {
    match q
    case CouncilIs(c) => InCouncil(r, c)
    case CouncilSince(c, col, start) => InCouncil(r, c) && OnOrAfter(DateOf(r, col), start)
  }

  /** The positions of the rows a query keeps: exactly the matching positions,
      ascending. */
  function MatchIndices(rows: seq<ServiceRequest>, q: Query): (ix: seq<nat>)
    ensures forall k :: 0 <= k < |ix| ==> ix[k] < |rows| && Matches(rows[ix[k]], q)
    ensures forall k, l :: 0 <= k < l < |ix| ==> ix[k] < ix[l]
    ensures forall i :: 0 <= i < |rows| && Matches(rows[i], q) ==> i in ix
  {
    if |rows| == 0 then []
    else
      var n := |rows| - 1;
      MatchIndices(rows[..n], q) + (if Matches(rows[n], q) then [n] else [])
  }

  lemma NoMatchIndices(rows: seq<ServiceRequest>, q: Query)
    ensures |MatchIndices(rows, q)| == 0 <==> forall i :: 0 <= i < |rows| ==> !Matches(rows[i], q)
  {
    var ix := MatchIndices(rows, q);
    if |ix| > 0 {
      assert Matches(rows[ix[0]], q);
    }
  }

  /** `df.query(q)`: the matching rows in their original order. */
  function Select(rows: seq<ServiceRequest>, q: Query): (m: seq<ServiceRequest>)
    ensures |m| == |MatchIndices(rows, q)|
    ensures forall k :: 0 <= k < |m| ==> m[k] == rows[MatchIndices(rows, q)[k]]
  {
    if |rows| == 0 then []
    else
      var n := |rows| - 1;
      Select(rows[..n], q) + (if Matches(rows[n], q) then [rows[n]] else [])
  }

  /** `df.query(q)['srnumber'].count()`: matching rows whose request number
      is present. */
  function CountPresent(rows: seq<ServiceRequest>, q: Query): (n: nat)
    ensures n <= |MatchIndices(rows, q)|
    ensures n == 0 <==> forall i :: 0 <= i < |rows| && Matches(rows[i], q) ==> rows[i].srnumber.None?
    ensures (forall i :: 0 <= i < |rows| && Matches(rows[i], q) ==> rows[i].srnumber.Some?) ==>
              n == |MatchIndices(rows, q)|
  {
    if |rows| == 0 then 0
    else
      var m := |rows| - 1;
      assert forall i :: 0 <= i < m ==> rows[..m][i] == rows[i];
      CountPresent(rows[..m], q) + (if Matches(rows[m], q) && rows[m].srnumber.Some? then 1 else 0)
  }

  /** The positions of the matching rows whose request number is present. */
  ghost function PresentPositions(rows: seq<ServiceRequest>, q: Query): set<int> {
    set i | 0 <= i < |rows| && Matches(rows[i], q) && rows[i].srnumber.Some?
  }

  /** `count()` is exactly the number of matching rows with a request number. */
  lemma {:induction false} CountPresentExact(rows: seq<ServiceRequest>, q: Query)
    ensures CountPresent(rows, q) == |PresentPositions(rows, q)|
  {
    if |rows| == 0 {
      assert PresentPositions(rows, q) == {};
    } else {
      var n := |rows| - 1;
      CountPresentExact(rows[..n], q);
      var last: set<int> := if Matches(rows[n], q) && rows[n].srnumber.Some? then {n} else {};
      PresentPositionsSnoc(rows, q);
      assert PresentPositions(rows[..n], q) * last == {};
    }
  }

  lemma PresentPositionsSnoc(rows: seq<ServiceRequest>, q: Query)
    requires |rows| > 0
    ensures var n := |rows| - 1;
            PresentPositions(rows, q) == PresentPositions(rows[..n], q)
              + (if Matches(rows[n], q) && rows[n].srnumber.Some? then {n} else {})
  {
    var n := |rows| - 1;
    var a := PresentPositions(rows[..n], q);
    var last: set<int> := if Matches(rows[n], q) && rows[n].srnumber.Some? then {n} else {};
    forall i
      ensures i in PresentPositions(rows, q) <==> i in a + last
    {
      if 0 <= i < n {
        assert rows[..n][i] == rows[i];
        assert i in a <==> Matches(rows[i], q) && rows[i].srnumber.Some?;
        assert i !in last;
      } else if i == n {
        assert i !in a;
      } else {
        assert i !in a && i !in last;
      }
    }
    assert PresentPositions(rows, q) == a + last;
  }

  /** Adding a date bound to the council filter can only drop rows. */
  lemma {:induction false} DateBoundNarrows(rows: seq<ServiceRequest>, council: string, col: DateColumn, start: CalendarDate)
    ensures |MatchIndices(rows, CouncilSince(council, col, start))| <= |MatchIndices(rows, CouncilIs(council))|
  {
    if |rows| > 0 {
      DateBoundNarrows(rows[..|rows| - 1], council, col, start);
    }
  }

  /** A row passes a date bound exactly when its date is the start date or a
      later day. */
  lemma OnOrAfterChronological(date: Option<CalendarDate>, start: CalendarDate)
    ensures OnOrAfter(date, start) <==> date.Some? && exists n: nat :: AddDays(start, n) == date
  {
    if date.Some? {
      OnOrAfterIsChronological(start, date.value);
    }
  }

}

=== FILE: sorting.dfy ===
/** Sorting into strictly ascending order while dropping duplicates: what
    `sort_values(...).unique()` produces, and the order in which pandas lists
    the groups of a group-by. */
module Sorting {

  import opened Orders

  predicate StrictlySorted<T>(s: seq<T>, less: (T, T) -> bool) {
    forall i, j :: 0 <= i < j < |s| ==> less(s[i], s[j])
  }

  /** Inserts `x` into the ascending sequence `s` unless it is already there. */
  function InsertDistinct<T(==,!new)>(s: seq<T>, x: T, less: (T, T) -> bool): (r: seq<T>)
    ensures forall y :: y in r <==> y in s || y == x
  {
    if |s| == 0 then [x]
    else if x == s[0] then s
    else if less(x, s[0]) then [x] + s
    else [s[0]] + InsertDistinct(s[1..], x, less)
  }

  lemma {:induction false} InsertDistinctSorted<T(!new)>(s: seq<T>, x: T, less: (T, T) -> bool)
    requires StrictTotalOrder(less)
    requires StrictlySorted(s, less)
    ensures StrictlySorted(InsertDistinct(s, x, less), less)
  {
    if |s| > 0 && x != s[0] && !less(x, s[0]) {
      var rest := InsertDistinct(s[1..], x, less);
      InsertDistinctSorted(s[1..], x, less);
      assert less(s[0], x);
      forall y | y in rest
        ensures less(s[0], y)
      {
        if y != x {
          var k :| 1 <= k < |s| && s[k] == y;
        }
      }
      var r := [s[0]] + rest;
      forall i, j | 0 <= i < j < |r|
        ensures less(r[i], r[j])
      {
        if i == 0 {
          assert r[j] == rest[j - 1];
        } else {
          assert r[i] == rest[i - 1] && r[j] == rest[j - 1];
        }
      }
    } else if |s| > 0 && x != s[0] {
      var r := [x] + s;
      forall i, j | 0 <= i < j < |r|
        ensures less(r[i], r[j])
      {
        if i == 0 && j > 1 {
          assert less(x, s[0]) && less(s[0], s[j - 1]);
        }
      }
    }
  }

  /** The distinct elements of `xs` in ascending order. */
  function SortDistinct<T(==,!new)>(xs: seq<T>, less: (T, T) -> bool): (r: seq<T>)
    ensures forall y :: y in r <==> y in xs
  {
    if |xs| == 0 then []
    else InsertDistinct(SortDistinct(xs[..|xs| - 1], less), xs[|xs| - 1], less)
  }

  lemma {:induction false} SortDistinctSorted<T(!new)>(xs: seq<T>, less: (T, T) -> bool)
    requires StrictTotalOrder(less)
    ensures StrictlySorted(SortDistinct(xs, less), less)
  {
    if |xs| > 0 {
      SortDistinctSorted(xs[..|xs| - 1], less);
      InsertDistinctSorted(SortDistinct(xs[..|xs| - 1], less), xs[|xs| - 1], less);
    }
  }

  /** A strictly sorted sequence has no repeated element. */
  lemma StrictlySortedDistinct<T(!new)>(s: seq<T>, less: (T, T) -> bool, i: int, j: int)
    requires StrictTotalOrder(less)
    requires StrictlySorted(s, less)
    requires 0 <= i < |s| && 0 <= j < |s| && i != j
    ensures s[i] != s[j]
  {
    if i < j {
      assert less(s[i], s[j]);
    } else {
      assert less(s[j], s[i]);
    }
  }

}

=== FILE: wrappers.dfy ===
/** Optional values, used for the cells a dataframe may leave empty (NaN/NaT),
    for missing dictionary entries, and for date arithmetic that leaves the
    supported calendar range. */
module Wrappers {

  datatype Option<+T> = None | Some(value: T)

}
